=== FILE: README.md ===
# fast-s3-signer in Dafny

A model of `FastS3UrlSigner`, a small library that builds presigned S3 URLs with
AWS Signature Version 4 query-string authentication. Given a signer identity
(region, access key, secret key), a bucket, an object key, an HTTP method token,
an expiry and the current instant, it produces

    https://<host>/<quoted key>?X-Amz-Algorithm=AWS4-HMAC-SHA256&X-Amz-Credential=<...>
        &X-Amz-Date=<YYYYMMDDTHHMMSSZ>&X-Amz-Expires=<n>&X-Amz-SignedHeaders=host&X-Amz-Signature=<64 hex>

The model is a pipeline of pure functions over byte strings, one module per
stage:

| module | file | what it holds |
|---|---|---|
| `Text` | Text.dfy | bytes, ASCII literals, ASCII lowering, `sep.join` / `str.split` and their inverse lemmas |
| `Hex` | Hex.dfy | hex digits, `bytes.hex()` and its decoder |
| `Decimal` | Decimal.dfy | `str(int)`, zero-padded `strftime` fields, and their readers |
| `PercentEncoding` | PercentEncoding.dfy | `urllib.parse.quote` and `quote_plus` with decoders |
| `Timestamp` | Timestamp.dfy | the captured instant, `%Y%m%dT%H%M%SZ` and `%Y%m%d` |
| `Crypto` | Crypto.dfy | SHA-256 / HMAC-SHA256 as parameters, the signing-key chain |
| `Canonical` | Canonical.dfy | host resolver, credential scope, canonical query, canonical request, string to sign |
| `Signer` | Signer.dfy | signer identity, the presigning pipeline, the GET and PUT entry points |

Every Python `str` is modelled as its UTF-8 bytes (`seq<byte>`). String
concatenation is then byte concatenation. Splitting on an ASCII separator is
splitting on that byte. SHA-256 and HMAC-SHA256 are the two fields of a
`Crypto.Primitives` value: any total functions whose results are 32 bytes long.
Every property is proved for all such functions. The clock read becomes the
`now: Instant` parameter. It is read once per call and threaded through every
stage.

`Signer.Presign` returns every intermediate value of one call: host, canonical
URI, the two timestamps, scope, credential, query, canonical request, string to
sign, signing key, signature and URL. The lemmas can then state how these values
relate. `GetSignedUrl` and `PutSignedUrl` return its `url` field. As in the
source, their expiry defaults to 9000.

The code validates neither the method nor the expiry. `__get_presigned_url`
accepts any method token and renders any integer expiry with `str()`. The model
follows the code: `Presign` takes any method token and any `int` expiry, and a
negative expiry renders as "-" followed by digits.

## Model

| member | source | states |
|---|---|---|
| Signer.NewSigner | fast_s3_url_signer.py:15-20 | The signer keeps both keys as given. Its region has no capital letters and equals the given region up to ASCII case. |
| Text.ToLowerSameIffEqualIgnoringCase | fast_s3_url_signer.py:18 | Two regions lower to the same string if and only if they agree up to ASCII case. |
| Text.ToLowerFolds | fast_s3_url_signer.py:18 | Lowering leaves no capitals, keeps the string equal up to case, and lowering twice equals lowering once. |
| Canonical.Host | fast_s3_url_signer.py:28-31 | The host is the global endpoint bucket + ".s3.amazonaws.com" exactly when the region is "us-east-1". The bucket is a proper prefix of the host. Reading the region back from the host (`EndpointRegion`) gives the region it was built for: the global form means us-east-1, and the regional form names its region. |
| Canonical.HostInjective | fast_s3_url_signer.py:28-31 | Two (bucket, region) pairs with equal-length buckets share a host only if they are the same pair. This holds even though us-east-1 has no region segment. |
| Canonical.HostInjectiveInBucket | fast_s3_url_signer.py:28-31 | Within one region, different buckets never share a host. |
| Signer.GlobalEndpointIffUsEast1 | fast_s3_url_signer.py:28-31 | A signer built from a region in any case uses the global host bucket + ".s3.amazonaws.com" exactly when the region is "us-east-1" up to case. Otherwise the host is bucket + ".s3." + lowered region + ".amazonaws.com". |
| PercentEncoding.Encode | fast_s3_url_signer.py:45 | The encoder emits only unreserved bytes, "%" and hex digits. `quote` may also emit "/", and `quote_plus` may also emit "+". The output is one to three times the length of the input. |
| PercentEncoding.EscapesAreUppercase | fast_s3_url_signer.py:45 | Every "%" the encoder writes is followed by two uppercase hex digits. A lowercase letter never follows a "%". |
| PercentEncoding.Quote | fast_s3_url_signer.py:45 | `quote(key)` decodes back to the key. It contains no newline, "&", "?" or "=". |
| PercentEncoding.QuotePlus | fast_s3_url_signer.py:62-64 | `quote_plus(s)` decodes back to `s`. It contains no "/", newline, "&", "?" or "=". |
| PercentEncoding.QuotePlusSpace | fast_s3_url_signer.py:62-64 | `quote_plus` writes a space as "+". |
| PercentEncoding.QuoteSpace | fast_s3_url_signer.py:45 | `quote` writes a space as "%20". |
| PercentEncoding.DecodeEncode | fast_s3_url_signer.py:45 | Decoding the output of `quote` or `quote_plus` gives back the original bytes exactly. |
| PercentEncoding.EncodeInjective | fast_s3_url_signer.py:45 | Different keys have different encodings. |
| PercentEncoding.EncodeAppend | fast_s3_url_signer.py:45 | Encoding a concatenation is the concatenation of the encodings. |
| PercentEncoding.EncodeSafe | fast_s3_url_signer.py:45 | A key made only of unreserved bytes (plus "/" for `quote`) is left unchanged. |
| PercentEncoding.QuoteKeepsSlashes | fast_s3_url_signer.py:45 | `quote` keeps every "/" literally: the quoted key splits on "/" into the quoted segments of the key. Newline, "&", "?" and "=" never appear in the output. |
| PercentEncoding.QuoteSlashPrefix | fast_s3_url_signer.py:45-51 | "/" + `quote(key)` is the quoting of "/" + key, so the canonical URI decodes to "/" + key. |
| PercentEncoding.QuotePlusSlash | fast_s3_url_signer.py:62-64 | `quote_plus(a + "/" + b)` is `quote_plus(a)` + "%2F" + `quote_plus(b)`. It contains no literal "/". |
| Decimal.NatDigits | fast_s3_url_signer.py:66 | A non-negative number renders as at least one digit, with no leading zero unless the number is 0. |
| Decimal.IntToDecimal | fast_s3_url_signer.py:66 | `str(expiry)` starts with "-" exactly when the expiry is negative. The rest is digits with no leading zero, unless the expiry is 0, which renders as the single digit "0". |
| Decimal.ParseIntToDecimal | fast_s3_url_signer.py:66 | Reading the rendered expiry back gives the expiry. |
| Decimal.ZeroPad | fast_s3_url_signer.py:49-50 | A zero-padded `strftime` field is exactly `width` digits. |
| Decimal.ValueOfZeroPad | fast_s3_url_signer.py:49-50 | A zero-padded field reads back as its value. |
| Timestamp.DateStamp | fast_s3_url_signer.py:50 | The date stamp is exactly 8 digits. |
| Timestamp.AmzDate | fast_s3_url_signer.py:48-50 | `amz_date` has length 16, with "T" at index 8 and "Z" last. Its first 8 bytes are the date stamp of the same instant. |
| Timestamp.AmzDateAlphabet | fast_s3_url_signer.py:49 | `amz_date` contains only digits, "T" and "Z". |
| Timestamp.ParseAmzDateInverts | fast_s3_url_signer.py:48-49 | Parsing `amz_date` gives back the captured instant, so the rendering loses nothing. |
| Canonical.CredentialScope | fast_s3_url_signer.py:58 | The credential scope is its four components (date stamp, region, "s3", "aws4_request") joined by "/". |
| Canonical.ScopeSplit | fast_s3_url_signer.py:58 | Split on "/", the credential scope is exactly [date stamp, region, "s3", "aws4_request"], provided the region has no "/". |
| Canonical.CredentialValue | fast_s3_url_signer.py:62-64 | The `X-Amz-Credential` value has no literal "/": it is `quote_plus(access key)` + "%2F" + `quote_plus(scope)`. It decodes to access key + "/" + scope. |
| Canonical.CanonicalQuery | fast_s3_url_signer.py:60-67 | The query string built by appending is the five `name=value` parameters joined by "&". |
| Canonical.QuerySplit | fast_s3_url_signer.py:60-67 | Split on "&", the query string is exactly the five `name=value` parameters, in the fixed order: Algorithm, Credential, Date, Expires, SignedHeaders. |
| Canonical.QueryExcludes | fast_s3_url_signer.py:60-67 | The query string contains a newline or "?" only if the credential or the date does. |
| Canonical.QueryParamsSorted | fast_s3_url_signer.py:60-67 | The five parameters of the query are in strictly increasing byte order. So their names are distinct, and the order they are appended in is the sorted order that canonical query strings require. |
| Canonical.CanonicalRequest | fast_s3_url_signer.py:69-81 | The canonical request is its seven lines joined by newlines: method, URI, query, "host:" + host, "", "host", "UNSIGNED-PAYLOAD". The header line's own "\n" and the separator before "host" give the empty line. |
| Canonical.CanonicalRequestVerbPrefix | fast_s3_url_signer.py:69-81 | The method token is a prefix of the canonical request. Nothing after it depends on the method. |
| Canonical.MethodLine | fast_s3_url_signer.py:69-71 | The first line of the canonical request is exactly the method token. |
| Canonical.CanonicalRequestInjective | fast_s3_url_signer.py:69-81 | Two canonical requests with newline-free fields are equal only when their method, URI, query and host are all equal. |
| Canonical.CanonicalRequestSplit | fast_s3_url_signer.py:69-81 | Split on newlines, the canonical request is exactly 7 lines: method, URI, query, "host:" + host, "", "host", "UNSIGNED-PAYLOAD". This needs newline-free fields. |
| Canonical.StringToSign | fast_s3_url_signer.py:83-91 | The string to sign is its four lines joined by newlines: algorithm, `amz_date`, scope, and the hex SHA-256 of the canonical request. |
| Canonical.StringToSignSplit | fast_s3_url_signer.py:83-91 | When the date and the scope hold no newline, the string to sign splits on newlines into exactly 4 lines: algorithm, `amz_date`, scope, and the hex SHA-256 of the canonical request. |
| Crypto.SigningKey | fast_s3_url_signer.py:36-41 | The signing key is the HMAC chain that starts from "AWS4" + secret. It runs over the date, the region, the service and "aws4_request", in that order, and each step's raw output keys the next. |
| Canonical.KeyFollowsScope | fast_s3_url_signer.py:93 | The key chain runs over exactly the "/"-separated components of the credential scope, in scope order. |
| Crypto.HexDigest | fast_s3_url_signer.py:95 | `hexdigest()` is 64 lowercase hex digits that decode back to the digest. |
| Hex.DecodeEncode | fast_s3_url_signer.py:90 | Decoding a hex digest gives back the digest bytes. |
| Hex.Encode | fast_s3_url_signer.py:90 | Hex encoding doubles the length and emits only lowercase hex digits. |
| Hex.EncodeInjective | fast_s3_url_signer.py:90 | Two byte strings with the same hex form are equal, so the hex digest of a request stands for the digest itself. |
| Signer.Presign | fast_s3_url_signer.py:43-100 | The host has the bucket as a proper prefix and reads back to the signer's region. It is the global endpoint exactly when that region is "us-east-1". The canonical URI starts with "/" and decodes to "/" + object key. `amz_date` parses back to `now` and starts with the date stamp. The date stamp is the 8-digit `%Y%m%d` rendering of `now`. The credential is `quote_plus(access key + "/" + scope)`, has no "/" and decodes back. The signature is the hex digest of the HMAC of the string to sign under the signing key, and decodes to that HMAC. Every other field is pinned to the stage that builds it: the scope, the query, the canonical request, the string to sign (the hex SHA-256 of the canonical request under the algorithm, date and scope), the signing key and the URL (`https://` + host + URI + `?` + query + `&X-Amz-Signature=` + signature). |
| Signer.GetSignedUrl | fast_s3_url_signer.py:22-23 | `get_signed_url` returns the URL of a presigning call whose canonical request has "GET" as its whole first line. The URL begins with "https://" and the bucket's host for the signer's region. |
| Signer.PutSignedUrl | fast_s3_url_signer.py:25-26 | `generate_signed_put_url` returns the URL of a presigning call whose canonical request has "PUT" as its whole first line. The URL begins with "https://" and the bucket's host for the signer's region. |
| Signer.FieldsFree | fast_s3_url_signer.py:45-95 | The canonical URI, the date, the credential and the signature contain no newline, "?" or "&". |
| Signer.CanonicalRequestLayout | fast_s3_url_signer.py:69-81 | The canonical request of a call splits into its 7 lines, and its query splits into the 5 fixed parameters. The host line carries the host that `Presign` pins to the bucket and region. This needs a method, bucket and region with no newline. |
| Signer.StringToSignLayout | fast_s3_url_signer.py:83-93 | When the region holds no newline, the string to sign of a call splits into its 4 lines. For any region it is the join of those lines, as `Presign` states. |
| Signer.KeyMatchesScope | fast_s3_url_signer.py:58-93 | The scope of a call splits into [`%Y%m%d` of `now`, region, "s3", "aws4_request"]. The call's signing key is the chain over exactly those components. |
| Signer.UrlLayout | fast_s3_url_signer.py:97-99 | The URL splits at "?" into "https://" + host + "/" + quoted key, followed by the query string with "&X-Amz-Signature=" + signature appended. The host is the one `Presign` pins to the bucket and region. |
| Signer.SignedQueryLayout | fast_s3_url_signer.py:97 | The signed query string splits on "&" into the five fixed parameters followed by `X-Amz-Signature`, which comes last. |
| Signer.GetPutDifferOnlyInMethod | fast_s3_url_signer.py:22-26 | The GET and PUT entry points agree on host, URI, query, scope and signing key. Their canonical requests differ only in the leading method token. |
| Signer.CanonicalRequestDeterminesTarget | fast_s3_url_signer.py:69-81 | When the two methods, the two buckets and the region hold no newline, two calls by one signer at one instant with the same canonical request have the same method, object key and bucket. A newline in a bucket or method can make two different calls build the same canonical request. |

## Left out

- SHA-256 and HMAC-SHA256 internals: they are foreign library primitives. They are parameters of the model, constrained only to 32-byte outputs.
- `datetime.utcnow()`: the ambient clock read becomes the `now` parameter. The fraction of a second is never rendered, so it is not modelled.
- The UTF-8 encoding of Python `str` values into bytes: keys, bucket, region and credentials are given as byte strings.
- NewSigner: lowers ASCII letters only. Python's `str.lower` also folds non-ASCII letters, which the model does not cover.
- AmzDate: `Timestamp.Valid` admits only years 1000 to 9999. The platform's `strftime("%Y")` does not zero-pad earlier years the same way everywhere, and a reading of the present clock is never affected. `Valid` also allows day 31 in every month. That is looser than a real calendar and does not matter for formatting.
- CanonicalRequestLayout: the 7-line split needs a method, bucket and region without newlines. The source does not check this, and a newline there makes the canonical request ambiguous.
- UrlLayout: needs a bucket and region without "?". The source does not check this either.
- StringToSignLayout: the 4-line split needs a region without a newline. For any region, `Presign` still pins the string to sign as the join of the four lines.
- CanonicalRequestDeterminesTarget: needs methods, buckets and a region without newlines. Without that, a bucket holding a newline can make two different calls produce the same canonical request.
- KeyMatchesScope: needs a region without "/". Otherwise the scope has more than four "/"-separated components. The key chain still uses the whole region as one message.
- "Changing any input byte changes the signature": with uninterpreted hash functions this cannot be proved. `CanonicalRequestDeterminesTarget` proves the part the signer controls: for newline-free methods, buckets and region, the canonical request already pins the method, object key and bucket.
- The decoders `PercentEncoding.Decode` and `Hex.Decode` are reference inverses used to state round-trips. They reject a malformed "%" where `urllib.parse.unquote` would leave it as it is.
- Validation of the method and of expiry bounds: the source does neither, so the model adds neither.
- Python private-name mangling and the class plumbing: `Signer` is an immutable datatype, and the private helpers are module functions.

=== FILE: Canonical.dfy ===
/** The strings a presigned S3 URL is built from: the virtual-hosted-style
    host, the credential scope, the canonical query string, the canonical
    request and the string to sign (AWS Signature Version 4, query-string
    authentication).
 */
module Canonical {
  import opened Text
  import opened Decimal
  import opened PercentEncoding
  import Crypto

  const GLOBAL_REGION: Bytes := Str("us-east-1")
  const GLOBAL_SUFFIX: Bytes := Str(".s3.amazonaws.com")
  const REGIONAL_INFIX: Bytes := Str(".s3.")
  const REGIONAL_SUFFIX: Bytes := Str(".amazonaws.com")

  const SERVICE: Bytes := Str("s3")
  const ALGORITHM: Bytes := Str("AWS4-HMAC-SHA256")
  const SIGNED_HEADERS: Bytes := Str("host")
  const HOST_HEADER_PREFIX: Bytes := Str("host:")
  const UNSIGNED_PAYLOAD: Bytes := Str("UNSIGNED-PAYLOAD")

  const ALGORITHM_NAME: Bytes := Str("X-Amz-Algorithm")
  const CREDENTIAL_NAME: Bytes := Str("X-Amz-Credential")
  const DATE_NAME: Bytes := Str("X-Amz-Date")
  const EXPIRES_NAME: Bytes := Str("X-Amz-Expires")
  const SIGNED_HEADERS_NAME: Bytes := Str("X-Amz-SignedHeaders")
  const SIGNATURE_NAME: Bytes := Str("X-Amz-Signature")

  /** The bytes the literal fields are made of: unreserved characters and ":". */
  predicate PlainText(s: Bytes) {
    forall i | 0 <= i < |s| :: IsUnreserved(s[i]) || s[i] == ':' as byte
  }

  /** The bytes the layouts split on or delimit with. */
  predicate IsDelimiter(b: byte) {
    b == NEWLINE || b == QUESTION || b == AMPERSAND || b == EQUALS || b == SLASH
  }

  lemma PlainExcludes(s: Bytes, b: byte)
    requires PlainText(s) && IsDelimiter(b)
    ensures b !in s
  {
    assert forall i | 0 <= i < |s| :: s[i] != b;
  }

  predicate IsPlainChar(c: char) {
    || 'a' <= c <= 'z' || 'A' <= c <= 'Z' || '0' <= c <= '9'
    || c == '-' || c == '.' || c == '_' || c == '~' || c == ':'
  }

  lemma PlainLiteral(lit: string)
    requires forall i | 0 <= i < |lit| :: IsPlainChar(lit[i])
    ensures IsAscii(lit) && PlainText(Str(lit))
  {
  }

  /** Every literal field is plain text. */
  lemma LiteralsPlain()
    ensures PlainText(GLOBAL_SUFFIX) && PlainText(REGIONAL_INFIX) && PlainText(REGIONAL_SUFFIX)
    ensures PlainText(SERVICE) && PlainText(Crypto.TERMINATOR) && PlainText(ALGORITHM)
    ensures PlainText(SIGNED_HEADERS) && PlainText(HOST_HEADER_PREFIX) && PlainText(UNSIGNED_PAYLOAD)
    ensures PlainText(ALGORITHM_NAME) && PlainText(CREDENTIAL_NAME) && PlainText(DATE_NAME)
    ensures PlainText(EXPIRES_NAME) && PlainText(SIGNED_HEADERS_NAME) && PlainText(SIGNATURE_NAME)
  {
    PlainLiteral(".s3.amazonaws.com");
    PlainLiteral(".s3.");
    PlainLiteral(".amazonaws.com");
    PlainLiteral("s3");
    PlainLiteral("aws4_request");
    PlainLiteral("AWS4-HMAC-SHA256");
    PlainLiteral("host");
    PlainLiteral("host:");
    PlainLiteral("UNSIGNED-PAYLOAD");
    PlainLiteral("X-Amz-Algorithm");
    PlainLiteral("X-Amz-Credential");
    PlainLiteral("X-Amz-Date");
    PlainLiteral("X-Amz-Expires");
    PlainLiteral("X-Amz-SignedHeaders");
    PlainLiteral("X-Amz-Signature");
  }

  /** No literal field holds a delimiter. */
  lemma LiteralsExclude(b: byte)
    requires IsDelimiter(b)
    ensures b !in GLOBAL_SUFFIX && b !in REGIONAL_INFIX && b !in REGIONAL_SUFFIX
    ensures b !in SERVICE && b !in Crypto.TERMINATOR && b !in ALGORITHM
    ensures b !in SIGNED_HEADERS && b !in HOST_HEADER_PREFIX && b !in UNSIGNED_PAYLOAD
    ensures b !in ALGORITHM_NAME && b !in CREDENTIAL_NAME && b !in DATE_NAME
    ensures b !in EXPIRES_NAME && b !in SIGNED_HEADERS_NAME && b !in SIGNATURE_NAME
  {
    LiteralsPlain();
    PlainExcludes(GLOBAL_SUFFIX, b);
    PlainExcludes(REGIONAL_INFIX, b);
    PlainExcludes(REGIONAL_SUFFIX, b);
    PlainExcludes(SERVICE, b);
    PlainExcludes(Crypto.TERMINATOR, b);
    PlainExcludes(ALGORITHM, b);
    PlainExcludes(SIGNED_HEADERS, b);
    PlainExcludes(HOST_HEADER_PREFIX, b);
    PlainExcludes(UNSIGNED_PAYLOAD, b);
    PlainExcludes(ALGORITHM_NAME, b);
    PlainExcludes(CREDENTIAL_NAME, b);
    PlainExcludes(DATE_NAME, b);
    PlainExcludes(EXPIRES_NAME, b);
    PlainExcludes(SIGNED_HEADERS_NAME, b);
    PlainExcludes(SIGNATURE_NAME, b);
  }

  // ---------------------------------------------------------------------
  // Host resolver
  // ---------------------------------------------------------------------

  /** Reads the region back from a host of the given bucket: the global
      endpoint means us-east-1, a regional endpoint names its region. */
  function EndpointRegion(host: Bytes, bucket: Bytes): Option<Bytes> {
    if |host| < |bucket| || host[..|bucket|] != bucket then None
    else
      var rest := host[|bucket|..];
      if rest == GLOBAL_SUFFIX then Some(GLOBAL_REGION)
      else if |rest| >= |REGIONAL_INFIX| + |REGIONAL_SUFFIX|
              && rest[..|REGIONAL_INFIX|] == REGIONAL_INFIX
              && rest[|rest| - |REGIONAL_SUFFIX|..] == REGIONAL_SUFFIX
      then Some(rest[|REGIONAL_INFIX|..|rest| - |REGIONAL_SUFFIX|])
      else None
  }

  /** The virtual-hosted-style host of a bucket: the global endpoint exactly
      for us-east-1, the regional endpoint for every other region. The bucket
      is a prefix of the host, and the host names its region: reading it back
      gives the region the host was built for, so different regions give
      different hosts of one bucket even though us-east-1 has no region
      segment. */
  function Host(bucket: Bytes, region: Bytes): (h: Bytes)
    ensures |h| > |bucket| && h[..|bucket|] == bucket
    ensures EndpointRegion(h, bucket) == Some(region)
    ensures h == bucket + GLOBAL_SUFFIX <==> region == GLOBAL_REGION
  {
    if region == GLOBAL_REGION then
      var h := bucket + GLOBAL_SUFFIX;
      assert h[|bucket|..] == GLOBAL_SUFFIX;
      h
    else
      var h := bucket + REGIONAL_INFIX + region + REGIONAL_SUFFIX;
      var rest := h[|bucket|..];
      assert rest == REGIONAL_INFIX + region + REGIONAL_SUFFIX;
      assert |rest| != |GLOBAL_SUFFIX|;
      assert rest[..|REGIONAL_INFIX|] == REGIONAL_INFIX;
      assert rest[|rest| - |REGIONAL_SUFFIX|..] == REGIONAL_SUFFIX;
      assert rest[|REGIONAL_INFIX|..|rest| - |REGIONAL_SUFFIX|] == region;
      h
  }

  /** Different (bucket, region) pairs whose buckets have the same length
      never share a host; the bucket is a prefix of the host. */
  lemma HostInjective(b1: Bytes, r1: Bytes, b2: Bytes, r2: Bytes)
    requires |b1| == |b2|
    requires Host(b1, r1) == Host(b2, r2)
    ensures b1 == b2 && r1 == r2
  {
    assert b1 == Host(b1, r1)[..|b1|] == Host(b2, r2)[..|b2|] == b2;
  }

  /** The host adds no newline, "?" or "&" of its own. */
  lemma HostExcludes(bucket: Bytes, region: Bytes, b: byte)
    requires IsDelimiter(b)
    requires b !in bucket && b !in region
    ensures b !in Host(bucket, region)
  {
    LiteralsExclude(b);
  }

  /** For one region, different buckets never share a host. */
  lemma HostInjectiveInBucket(b1: Bytes, b2: Bytes, region: Bytes)
    requires Host(b1, region) == Host(b2, region)
    ensures b1 == b2
  {
    HostInjective(b1, region, b2, region);
  }

  // ---------------------------------------------------------------------
  // Credential scope
  // ---------------------------------------------------------------------

  /** The four components of the credential scope, which are also the
      messages of the signing-key chain. */
  function ScopeComponents(dateStamp: Bytes, region: Bytes): seq<Bytes> {
    [dateStamp, region, SERVICE, Crypto.TERMINATOR]
  }

  /** `datestamp/region/s3/aws4_request`: the four components joined by "/". */
  function CredentialScope(dateStamp: Bytes, region: Bytes): (r: Bytes)
    ensures r == Join(ScopeComponents(dateStamp, region), SLASH)
  {
    JoinPieces4(dateStamp, region, SERVICE, Crypto.TERMINATOR, SLASH);
    dateStamp + [SLASH] + region + [SLASH] + SERVICE + [SLASH] + Crypto.TERMINATOR
  }

  /** The scope splits on "/" into exactly its four components when the date
      stamp and the region hold no "/". */
  lemma ScopeSplit(dateStamp: Bytes, region: Bytes)
    requires SLASH !in dateStamp && SLASH !in region
    ensures Split(CredentialScope(dateStamp, region), SLASH) == ScopeComponents(dateStamp, region)
  {
    var parts := ScopeComponents(dateStamp, region);
    LiteralsExclude(SLASH);
    SplitJoin(parts, SLASH);
  }

  /** The signing key is derived over the very components the scope lists,
      in the order it lists them. */
  lemma KeyFollowsScope(p: Crypto.Primitives, secret: Bytes, dateStamp: Bytes, region: Bytes)
    requires SLASH !in dateStamp && SLASH !in region
    ensures Crypto.SigningKey(p, secret, dateStamp, region, SERVICE)
         == Crypto.Chain(p, Crypto.KEY_PREFIX + secret, Split(CredentialScope(dateStamp, region), SLASH))
  {
    ScopeSplit(dateStamp, region);
  }

  /** The `X-Amz-Credential` value, `quote_plus(access_key + "/" + scope)`:
      it holds no literal "/" (each is written "%2F") and decodes back to the
      access key, a "/" and the scope. */
  function CredentialValue(accessKey: Bytes, scope: Bytes): (r: Bytes)
    ensures SLASH !in r
    ensures r == QuotePlus(accessKey) + Str("%2F") + QuotePlus(scope)
    ensures Decode(r, Form) == Some(accessKey + [SLASH] + scope)
  {
    QuotePlusSlash(accessKey, scope);
    QuotePlus(accessKey + [SLASH] + scope)
  }

  // ---------------------------------------------------------------------
  // Canonical query string
  // ---------------------------------------------------------------------

  /** `name=value`. */
  function Param(name: Bytes, value: Bytes): Bytes {
    name + [EQUALS] + value
  }

  /** The five parameters of the canonical query string, in order. */
  function QueryParams(credential: Bytes, amzDate: Bytes, expiry: int): seq<Bytes> {
    [ Param(ALGORITHM_NAME, ALGORITHM),
      Param(CREDENTIAL_NAME, credential),
      Param(DATE_NAME, amzDate),
      Param(EXPIRES_NAME, IntToDecimal(expiry)),
      Param(SIGNED_HEADERS_NAME, SIGNED_HEADERS) ]
  }

  /** The canonical query string, appended parameter by parameter: the five
      parameters joined by "&". The expiry is rendered as `str(expiry)`,
      whatever its sign. */
  function CanonicalQuery(credential: Bytes, amzDate: Bytes, expiry: int): (r: Bytes)
    ensures r == Join(QueryParams(credential, amzDate, expiry), AMPERSAND)
  {
    JoinPieces5(Param(ALGORITHM_NAME, ALGORITHM), Param(CREDENTIAL_NAME, credential),
                Param(DATE_NAME, amzDate), Param(EXPIRES_NAME, IntToDecimal(expiry)),
                Param(SIGNED_HEADERS_NAME, SIGNED_HEADERS), AMPERSAND);
    Param(ALGORITHM_NAME, ALGORITHM)
    + [AMPERSAND] + Param(CREDENTIAL_NAME, credential)
    + [AMPERSAND] + Param(DATE_NAME, amzDate)
    + [AMPERSAND] + Param(EXPIRES_NAME, IntToDecimal(expiry))
    + [AMPERSAND] + Param(SIGNED_HEADERS_NAME, SIGNED_HEADERS)
  }

  /** Byte-wise lexicographic order: `a` sorts strictly before `b`. */
  predicate LexLess(a: Bytes, b: Bytes) {
    exists k | 0 <= k <= |a| && k < |b| :: a[..k] == b[..k] && (k == |a| || a[k] < b[k])
  }

  /** The five parameters of the query are in strictly increasing byte
      order, as canonical query strings require: their names share the prefix
      "X-Amz-" and then differ, so the names alone fix the order, and no two
      parameters share a name. */
  lemma QueryParamsSorted(credential: Bytes, amzDate: Bytes, expiry: int)
    ensures var ps := QueryParams(credential, amzDate, expiry);
            forall k | 0 <= k < 4 :: LexLess(ps[k], ps[k + 1])
  {
    var ps := QueryParams(credential, amzDate, expiry);
    var common := Str("X-Amz-");
    forall k | 0 <= k < 5
      ensures |ps[k]| > 6 && ps[k][..6] == common
    {
    }
    assert ps[0][6] < ps[1][6] < ps[2][6] < ps[3][6] < ps[4][6];
    forall k | 0 <= k < 4
      ensures LexLess(ps[k], ps[k + 1])
    {
      assert ps[k][..6] == ps[k + 1][..6];
    }
  }

  lemma JoinPieces4(a: Bytes, b: Bytes, c: Bytes, d: Bytes, sep: byte)
    ensures Join([a, b, c, d], sep) == a + [sep] + b + [sep] + c + [sep] + d
  {
    JoinAppend([a], b, sep);
    assert [a] + [b] == [a, b];
    JoinAppend([a, b], c, sep);
    assert [a, b] + [c] == [a, b, c];
    JoinAppend([a, b, c], d, sep);
    assert [a, b, c] + [d] == [a, b, c, d];
  }

  lemma JoinPieces5(a: Bytes, b: Bytes, c: Bytes, d: Bytes, e: Bytes, sep: byte)
    ensures Join([a, b, c, d, e], sep) == a + [sep] + b + [sep] + c + [sep] + d + [sep] + e
  {
    JoinPieces4(a, b, c, d, sep);
    JoinAppend([a, b, c, d], e, sep);
    assert [a, b, c, d] + [e] == [a, b, c, d, e];
  }

  lemma JoinPieces7(a: Bytes, b: Bytes, c: Bytes, d: Bytes, e: Bytes, f: Bytes, g: Bytes, sep: byte)
    ensures Join([a, b, c, d, e, f, g], sep)
         == a + [sep] + b + [sep] + c + [sep] + d + [sep] + e + [sep] + f + [sep] + g
  {
    JoinPieces5(a, b, c, d, e, sep);
    JoinAppend([a, b, c, d, e], f, sep);
    assert [a, b, c, d, e] + [f] == [a, b, c, d, e, f];
    JoinAppend([a, b, c, d, e, f], g, sep);
    assert [a, b, c, d, e, f] + [g] == [a, b, c, d, e, f, g];
  }

  /** The query string splits on "&" into exactly the five parameters, in
      the fixed order, when the credential and the date hold no "&". */
  lemma QuerySplit(credential: Bytes, amzDate: Bytes, expiry: int)
    requires AMPERSAND !in credential && AMPERSAND !in amzDate
    ensures Split(CanonicalQuery(credential, amzDate, expiry), AMPERSAND) == QueryParams(credential, amzDate, expiry)
  {
    var ps := QueryParams(credential, amzDate, expiry);
    ExpiryFree(expiry);
    LiteralsExclude(AMPERSAND);
    ParamFree(ALGORITHM_NAME, ALGORITHM, AMPERSAND);
    ParamFree(CREDENTIAL_NAME, credential, AMPERSAND);
    ParamFree(DATE_NAME, amzDate, AMPERSAND);
    ParamFree(EXPIRES_NAME, IntToDecimal(expiry), AMPERSAND);
    ParamFree(SIGNED_HEADERS_NAME, SIGNED_HEADERS, AMPERSAND);
    assert AllFree(ps, AMPERSAND);
    SplitJoin(ps, AMPERSAND);
  }

  lemma ParamFree(name: Bytes, value: Bytes, b: byte)
    requires b !in name && b != EQUALS && b !in value
    ensures b !in Param(name, value)
  {
  }

  lemma ExpiryFree(expiry: int)
    ensures AMPERSAND !in IntToDecimal(expiry) && NEWLINE !in IntToDecimal(expiry)
    ensures QUESTION !in IntToDecimal(expiry) && EQUALS !in IntToDecimal(expiry)
  {
    var e := IntToDecimal(expiry);
    forall i | 0 <= i < |e|
      ensures IsDigit(e[i]) || e[i] == MINUS
    {
      if expiry < 0 && i > 0 {
        assert e[i] == e[1..][i - 1];
      }
    }
  }

  /** The query string holds a newline or a "?" only if the credential or
      the date does. */
  lemma QueryExcludes(credential: Bytes, amzDate: Bytes, expiry: int, b: byte)
    requires b == NEWLINE || b == QUESTION
    requires b !in credential && b !in amzDate
    ensures b !in CanonicalQuery(credential, amzDate, expiry)
  {
    var ps := QueryParams(credential, amzDate, expiry);
    ExpiryFree(expiry);
    LiteralsExclude(b);
    ParamFree(ALGORITHM_NAME, ALGORITHM, b);
    ParamFree(CREDENTIAL_NAME, credential, b);
    ParamFree(DATE_NAME, amzDate, b);
    ParamFree(EXPIRES_NAME, IntToDecimal(expiry), b);
    ParamFree(SIGNED_HEADERS_NAME, SIGNED_HEADERS, b);
    assert AllFree(ps, b);
    JoinFree(ps, AMPERSAND, b);
  }

  // ---------------------------------------------------------------------
  // Canonical request and string to sign
  // ---------------------------------------------------------------------

  /** The canonical request, in the field order of the source: its seven
      lines joined by newlines. */
  function CanonicalRequest(verb: Bytes, canonicalUri: Bytes, query: Bytes, host: Bytes): (r: Bytes)
    ensures r == Join(RequestLines(verb, canonicalUri, query, host), NEWLINE)
  {
    var header := HOST_HEADER_PREFIX + host;
    var empty: Bytes := [];
    JoinPieces7(verb, canonicalUri, query, header, empty, SIGNED_HEADERS, UNSIGNED_PAYLOAD, NEWLINE);
    var front := verb + [NEWLINE] + canonicalUri + [NEWLINE] + query + [NEWLINE];
    assert front + (header + [NEWLINE]) == front + header + [NEWLINE] + empty;
    verb + [NEWLINE]
    + canonicalUri + [NEWLINE]
    + query + [NEWLINE]
    + (HOST_HEADER_PREFIX + host + [NEWLINE]) + [NEWLINE]
    + SIGNED_HEADERS + [NEWLINE]
    + UNSIGNED_PAYLOAD
  }

  /** The method token is a prefix of the canonical request, and nothing
      after it depends on the method. */
  lemma CanonicalRequestVerbPrefix(verb: Bytes, canonicalUri: Bytes, query: Bytes, host: Bytes)
    ensures CanonicalRequest(verb, canonicalUri, query, host)
         == verb + CanonicalRequest([], canonicalUri, query, host)
  {
  }

  /** The first line of the canonical request is exactly the method token. */
  lemma MethodLine(verb: Bytes, canonicalUri: Bytes, query: Bytes, host: Bytes)
    ensures var c := CanonicalRequest(verb, canonicalUri, query, host);
            |c| > |verb| && c[..|verb|] == verb && c[|verb|] == NEWLINE
  {
  }

  /** The seven lines of a canonical request. */
  function RequestLines(verb: Bytes, canonicalUri: Bytes, query: Bytes, host: Bytes): seq<Bytes> {
    [verb, canonicalUri, query, HOST_HEADER_PREFIX + host, [], SIGNED_HEADERS, UNSIGNED_PAYLOAD]
  }

  /** Splitting the canonical request on newlines gives exactly its seven
      lines when none of the variable fields holds a newline. */
  lemma CanonicalRequestSplit(verb: Bytes, canonicalUri: Bytes, query: Bytes, host: Bytes)
    requires NEWLINE !in verb && NEWLINE !in canonicalUri && NEWLINE !in query && NEWLINE !in host
    ensures Split(CanonicalRequest(verb, canonicalUri, query, host), NEWLINE)
         == RequestLines(verb, canonicalUri, query, host)
  {
    var ls := RequestLines(verb, canonicalUri, query, host);
    LiteralsExclude(NEWLINE);
    assert AllFree(ls, NEWLINE);
    SplitJoin(ls, NEWLINE);
  }

  /** Two canonical requests with newline-free fields are equal only when
      their method, URI, query and host are. */
  lemma CanonicalRequestInjective(v1: Bytes, u1: Bytes, q1: Bytes, h1: Bytes,
                                  v2: Bytes, u2: Bytes, q2: Bytes, h2: Bytes)
    requires NEWLINE !in v1 && NEWLINE !in u1 && NEWLINE !in q1 && NEWLINE !in h1
    requires NEWLINE !in v2 && NEWLINE !in u2 && NEWLINE !in q2 && NEWLINE !in h2
    requires CanonicalRequest(v1, u1, q1, h1) == CanonicalRequest(v2, u2, q2, h2)
    ensures v1 == v2 && u1 == u2 && q1 == q2 && h1 == h2
  {
    CanonicalRequestSplit(v1, u1, q1, h1);
    CanonicalRequestSplit(v2, u2, q2, h2);
    var l1 := RequestLines(v1, u1, q1, h1);
    var l2 := RequestLines(v2, u2, q2, h2);
    assert l1 == l2;
    assert HOST_HEADER_PREFIX + h1 == l1[3] == l2[3] == HOST_HEADER_PREFIX + h2;
    assert h1 == (HOST_HEADER_PREFIX + h1)[|HOST_HEADER_PREFIX|..];
    assert h2 == (HOST_HEADER_PREFIX + h2)[|HOST_HEADER_PREFIX|..];
  }

  /** The string to sign, in the field order of the source: its four lines
      joined by newlines. */
  function StringToSign(amzDate: Bytes, scope: Bytes, requestHash: Crypto.Digest): (r: Bytes)
    ensures r == Join([ALGORITHM, amzDate, scope, Crypto.HexDigest(requestHash)], NEWLINE)
  {
    JoinPieces4(ALGORITHM, amzDate, scope, Crypto.HexDigest(requestHash), NEWLINE);
    ALGORITHM + [NEWLINE] + amzDate + [NEWLINE] + scope + [NEWLINE] + Crypto.HexDigest(requestHash)
  }

  /** Splitting the string to sign on newlines gives its four lines. */
  lemma StringToSignSplit(amzDate: Bytes, scope: Bytes, requestHash: Crypto.Digest)
    requires NEWLINE !in amzDate && NEWLINE !in scope
    ensures Split(StringToSign(amzDate, scope, requestHash), NEWLINE)
         == [ALGORITHM, amzDate, scope, Crypto.HexDigest(requestHash)]
  {
    var h := Crypto.HexDigest(requestHash);
    var ls := [ALGORITHM, amzDate, scope, h];
    LiteralsExclude(NEWLINE);
    assert NEWLINE !in h by {
      assert forall i | 0 <= i < |h| :: h[i] != NEWLINE;
    }
    assert AllFree(ls, NEWLINE);
    SplitJoin(ls, NEWLINE);
  }
}

=== FILE: Crypto.dfy ===
/** The hash primitives and the SigV4 signing-key derivation.

    SHA-256 and HMAC-SHA256 are not modelled: they are parameters of the
    model, any pair of total functions whose outputs are 32 bytes long.
 */
module Crypto {
  import opened Text
  import Hex

  /** A raw 32-byte SHA-256 or HMAC-SHA256 output. */
  type Digest = s: Bytes | |s| == 32 witness seq(32, i => 0 as byte)

  /** `hashlib.sha256(m).digest()` and `hmac.new(key, m, hashlib.sha256).digest()`. */
  datatype Primitives = Primitives(sha256: Bytes -> Digest, hmacSha256: (Bytes, Bytes) -> Digest)

  /** `.hexdigest()` of a digest: 64 lowercase hex digits that decode back to
      the digest. */
  function HexDigest(d: Digest): (r: Bytes)
    ensures |r| == 64
    ensures forall i | 0 <= i < |r| :: Hex.IsLowerHexDigit(r[i])
    ensures Hex.Decode(r) == Some(d)
  {
    Hex.DecodeEncode(d);
    Hex.Encode(d)
  }

  const KEY_PREFIX: Bytes := Str("AWS4")
  const TERMINATOR: Bytes := Str("aws4_request")

  /** One link of the chain: HMAC keyed by `key` over `msg`, raw bytes out. */
  function Sign(p: Primitives, key: Bytes, msg: Bytes): Digest {
    p.hmacSha256(key, msg)
  }

  /** Reference definition of iterated keyed hashing: each message is
      HMAC'd under the previous step's raw output, starting from `key`. */
  function Chain(p: Primitives, key: Bytes, msgs: seq<Bytes>): Bytes
    decreases |msgs|
  {
    if |msgs| == 0 then key else Chain(p, Sign(p, key, msgs[0]), msgs[1..])
  }

  /** The signing key of a secret for one date, region and service: the
      chain from "AWS4" + secret over the date, the region, the service and
      "aws4_request", in that order. */
  function SigningKey(p: Primitives, secret: Bytes, dateStamp: Bytes, region: Bytes, service: Bytes): (k: Digest)
    ensures k == Chain(p, KEY_PREFIX + secret, [dateStamp, region, service, TERMINATOR])
  {
    var msgs := [dateStamp, region, service, TERMINATOR];
    var kDate := Sign(p, KEY_PREFIX + secret, dateStamp);
    var kRegion := Sign(p, kDate, region);
    var kService := Sign(p, kRegion, service);
    var kSigning := Sign(p, kService, TERMINATOR);
    assert msgs[1..] == [region, service, TERMINATOR];
    assert msgs[1..][1..] == [service, TERMINATOR];
    assert msgs[1..][1..][1..] == [TERMINATOR];
    assert msgs[1..][1..][1..][1..] == [];
    calc {
      Chain(p, KEY_PREFIX + secret, msgs);
      Chain(p, kDate, [region, service, TERMINATOR]);
      Chain(p, kRegion, [service, TERMINATOR]);
      Chain(p, kService, [TERMINATOR]);
      Chain(p, kSigning, []);
    }
    kSigning
  }
}

=== FILE: Decimal.dfy ===
/** Decimal numerals: Python's `str(int)` and the zero-padded fields of
    `strftime`. */
module Decimal {
  import opened Text

  const MINUS: byte := '-' as byte

  function DigitByte(d: int): byte
    requires 0 <= d < 10
  {
    ('0' as int + d) as byte
  }

  function DigitOf(b: byte): int
    requires IsDigit(b)
  {
    b as int - '0' as int
  }

  function Pow10(n: nat): nat {
    if n == 0 then 1 else 10 * Pow10(n - 1)
  }

  /** The value of a digit string, most significant digit first. */
  function ValueOf(s: Bytes): nat
    requires AllDigits(s)
  {
    if |s| == 0 then 0 else ValueOf(s[..|s| - 1]) * 10 + DigitOf(s[|s| - 1])
  }

  /** `str(n)` for `n >= 0`: at least one digit and no leading zero. */
  function NatDigits(n: nat): (r: Bytes)
    ensures |r| >= 1 && AllDigits(r)
    ensures r[0] == '0' as byte ==> n == 0 && |r| == 1
  {
    if n < 10 then [DigitByte(n)] else NatDigits(n / 10) + [DigitByte(n % 10)]
  }

  /** `str(n)`: a minus sign exactly for negative numbers, then the digits
      of the magnitude. */
  function IntToDecimal(n: int): (r: Bytes)
    ensures |r| >= 1
    ensures n < 0 <==> r[0] == MINUS
    ensures n >= 0 ==> AllDigits(r)
    ensures n < 0 ==> AllDigits(r[1..]) && |r| >= 2
    ensures n < 0 ==> r[1] != '0' as byte
    ensures r[0] == '0' as byte ==> n == 0 && |r| == 1
  {
    if n < 0 then [MINUS] + NatDigits(-n) else NatDigits(n)
  }

  /** Reads a numeral back: an optional minus sign and one or more digits. */
  function ParseInt(s: Bytes): Option<int> {
    if |s| >= 2 && s[0] == MINUS && AllDigits(s[1..]) then Some(-(ValueOf(s[1..]) as int))
    else if |s| >= 1 && AllDigits(s) then Some(ValueOf(s))
    else None
  }

  lemma ValueOfSnoc(s: Bytes, d: byte)
    requires AllDigits(s) && IsDigit(d)
    ensures AllDigits(s + [d]) && ValueOf(s + [d]) == ValueOf(s) * 10 + DigitOf(d)
  {
    assert (s + [d])[..|s|] == s;
  }

  lemma {:induction false} ValueOfNatDigits(n: nat)
    ensures ValueOf(NatDigits(n)) == n
  {
    if n >= 10 {
      ValueOfNatDigits(n / 10);
      ValueOfSnoc(NatDigits(n / 10), DigitByte(n % 10));
    }
  }

  /** Parsing `str(n)` gives back `n`. */
  lemma ParseIntToDecimal(n: int)
    ensures ParseInt(IntToDecimal(n)) == Some(n)
  {
    var r := IntToDecimal(n);
    if n < 0 {
      assert r[1..] == NatDigits(-n);
      ValueOfNatDigits(-n);
      assert ParseInt(r) == Some(-(ValueOf(r[1..]) as int));
    } else {
      assert r == NatDigits(n) && r[0] != MINUS;
      ValueOfNatDigits(n);
    }
  }

  /** `%0<width>d` for a value that fits: exactly `width` digits. */
  function ZeroPad(n: nat, width: nat): (r: Bytes)
    requires n < Pow10(width)
    ensures |r| == width && AllDigits(r)
  {
    if width == 0 then [] else ZeroPad(n / 10, width - 1) + [DigitByte(n % 10)]
  }

  /** A zero-padded field reads back as its value. */
  lemma {:induction false} ValueOfZeroPad(n: nat, width: nat)
    requires n < Pow10(width)
    ensures ValueOf(ZeroPad(n, width)) == n
  {
    if width > 0 {
      ValueOfZeroPad(n / 10, width - 1);
      ValueOfSnoc(ZeroPad(n / 10, width - 1), DigitByte(n % 10));
    }
  }
}

=== FILE: Hex.dfy ===
/** Hexadecimal digits: the lowercase `hexdigest()` form of a digest, and the
    uppercase digit pairs that percent-encoding writes. */
module Hex {
  import opened Text

  /** The lowercase digit of a nibble, as `hexdigest()` writes it. */
  function LowerDigit(n: int): byte
    requires 0 <= n < 16
  {
    if n < 10 then ('0' as int + n) as byte else ('a' as int + n - 10) as byte
  }

  /** The uppercase digit of a nibble, as the `%02X` format writes it. */
  function UpperDigit(n: int): byte
    requires 0 <= n < 16
  {
    if n < 10 then ('0' as int + n) as byte else ('A' as int + n - 10) as byte
  }

  predicate IsLowerHexDigit(b: byte) {
    IsDigit(b) || 'a' as byte <= b <= 'f' as byte
  }

  predicate IsUpperHexDigit(b: byte) {
    IsDigit(b) || 'A' as byte <= b <= 'F' as byte
  }

  /** The value of a hex digit of either case. */
  function DigitValue(b: byte): (v: Option<int>)
    ensures v.Some? <==> IsLowerHexDigit(b) || IsUpperHexDigit(b)
    ensures v.Some? ==> 0 <= v.value < 16
  {
    if IsDigit(b) then Some(b as int - '0' as int)
    else if 'a' as byte <= b <= 'f' as byte then Some(b as int - 'a' as int + 10)
    else if 'A' as byte <= b <= 'F' as byte then Some(b as int - 'A' as int + 10)
    else None
  }

  /** Reading a written digit gives back its nibble, in both cases; the two
      digit alphabets are the lower- and uppercase hex digits. */
  lemma DigitValueInvertsDigits(n: int)
    requires 0 <= n < 16
    ensures DigitValue(LowerDigit(n)) == Some(n) && IsLowerHexDigit(LowerDigit(n))
    ensures DigitValue(UpperDigit(n)) == Some(n) && IsUpperHexDigit(UpperDigit(n))
  {
  }

  /** `bytes.hex()`: two lowercase digits per byte, high nibble first. */
  function Encode(bs: Bytes): (r: Bytes)
    ensures |r| == 2 * |bs|
    ensures forall i | 0 <= i < |r| :: IsLowerHexDigit(r[i])
  {
    if |bs| == 0 then []
    else [LowerDigit(bs[0] as int / 16), LowerDigit(bs[0] as int % 16)] + Encode(bs[1..])
  }

  /** `bytes.fromhex` without whitespace: digit pairs back to bytes, `None`
      for an odd length or a non-digit. */
  function Decode(s: Bytes): (r: Option<Bytes>)
    ensures r.Some? ==> 2 * |r.value| == |s|
  {
    if |s| == 0 then Some([])
    else if |s| == 1 then None
    else match (DigitValue(s[0]), DigitValue(s[1]), Decode(s[2..]))
      case (Some(hi), Some(lo), Some(rest)) => Some([(hi * 16 + lo) as byte] + rest)
      case _ => None
  }

  /** Decoding a hex digest gives back the digest. */
  lemma {:induction false} DecodeEncode(bs: Bytes)
    ensures Decode(Encode(bs)) == Some(bs)
  {
    if |bs| > 0 {
      var hi, lo := bs[0] as int / 16, bs[0] as int % 16;
      DigitValueInvertsDigits(hi);
      DigitValueInvertsDigits(lo);
      var e := Encode(bs);
      assert e[2..] == Encode(bs[1..]);
      DecodeEncode(bs[1..]);
      assert [bs[0]] + bs[1..] == bs;
    }
  }

  /** Two byte strings with the same hex form are equal. */
  lemma EncodeInjective(a: Bytes, b: Bytes)
    requires Encode(a) == Encode(b)
    ensures a == b
  {
    DecodeEncode(a);
    DecodeEncode(b);
  }
}

=== FILE: PercentEncoding.dfy ===
/** Percent-encoding of bytes, as `urllib.parse.quote` (safe set "/") and
    `urllib.parse.quote_plus` (empty safe set, space written as "+") do it.

    Both keep the unreserved characters of section 2.3 of RFC 3986 (ALPHA,
    DIGIT, "-", ".", "_", "~") and write every other byte as "%" followed by
    two uppercase hex digits (section 2.1 of RFC 3986). `quote` also keeps
    "/"; `quote_plus` instead writes a space as "+".
 */
module PercentEncoding {
  import opened Text
  import Hex

  /** Which of the two encoders: `Path` is `quote`, `Form` is `quote_plus`. */
  datatype Mode = Path | Form

  predicate IsUnreserved(b: byte) {
    IsAlpha(b) || IsDigit(b)
    || b == '-' as byte || b == '.' as byte || b == '_' as byte || b == '~' as byte
  }

  /** Bytes written as themselves. */
  predicate IsSafe(b: byte, mode: Mode) {
    IsUnreserved(b) || (mode == Path && b == SLASH)
  }

  /** `%XX` with uppercase digits. */
  function Escape(b: byte): Bytes {
    [PERCENT, Hex.UpperDigit(b as int / 16), Hex.UpperDigit(b as int % 16)]
  }

  function EncodeByte(b: byte, mode: Mode): Bytes {
    if IsSafe(b, mode) then [b]
    else if mode == Form && b == SPACE then [PLUS]
    else Escape(b)
  }

  /** Bytes an encoder may emit: kept bytes, "%", uppercase hex digits, and
      "+" for `quote_plus`. */
  predicate InAlphabet(b: byte, mode: Mode) {
    IsSafe(b, mode) || b == PERCENT || Hex.IsUpperHexDigit(b) || (mode == Form && b == PLUS)
  }

  function Encode(s: Bytes, mode: Mode): (r: Bytes)
    ensures forall i | 0 <= i < |r| :: InAlphabet(r[i], mode)
    ensures |s| <= |r| <= 3 * |s|
  {
    if |s| == 0 then []
    else EncodeByte(s[0], mode) + Encode(s[1..], mode)
  }

  /** `urllib.parse.quote(s)`: decodes back to `s`, and writes none of the
      separators of a URL's query or of the canonical request. */
  function Quote(s: Bytes): (r: Bytes)
    ensures Decode(r, Path) == Some(s)
    ensures NEWLINE !in r && AMPERSAND !in r && QUESTION !in r && EQUALS !in r
  {
    DecodeEncode(s, Path);
    AlphabetExcludes(Encode(s, Path), Path);
    Encode(s, Path)
  }

  /** `urllib.parse.quote_plus(s)`: decodes back to `s`, and writes no "/"
      and none of those separators either. */
  function QuotePlus(s: Bytes): (r: Bytes)
    ensures Decode(r, Form) == Some(s)
    ensures SLASH !in r && NEWLINE !in r && AMPERSAND !in r && QUESTION !in r && EQUALS !in r
  {
    DecodeEncode(s, Form);
    AlphabetExcludes(Encode(s, Form), Form);
    Encode(s, Form)
  }

  /** The decoder of each mode: "%XX" (either case) becomes the byte, and for
      `Form` "+" becomes a space; a "%" not followed by two hex digits is
      rejected. */
  function Decode(s: Bytes, mode: Mode): (r: Option<Bytes>)
    ensures r.Some? ==> |r.value| <= |s|
  {
    if |s| == 0 then Some([])
    else if s[0] == PERCENT then
      if |s| < 3 then None
      else match (Hex.DigitValue(s[1]), Hex.DigitValue(s[2]), Decode(s[3..], mode))
        case (Some(hi), Some(lo), Some(rest)) => Some([(hi * 16 + lo) as byte] + rest)
        case _ => None
    else
      match Decode(s[1..], mode)
      case Some(rest) => Some([if mode == Form && s[0] == PLUS then SPACE else s[0]] + rest)
      case None => None
  }

  /** `Encode` maps concatenation to concatenation. */
  lemma {:induction false} EncodeAppend(a: Bytes, b: Bytes, mode: Mode)
    ensures Encode(a + b, mode) == Encode(a, mode) + Encode(b, mode)
  {
    if |a| == 0 {
      assert a + b == b;
    } else {
      assert (a + b)[0] == a[0];
      assert (a + b)[1..] == a[1..] + b;
      EncodeAppend(a[1..], b, mode);
    }
  }

  /** A string made only of bytes kept by the encoder is left as it is. */
  lemma {:induction false} EncodeSafe(s: Bytes, mode: Mode)
    requires forall i | 0 <= i < |s| :: IsSafe(s[i], mode)
    ensures Encode(s, mode) == s
  {
    if |s| > 0 {
      EncodeSafe(s[1..], mode);
      assert [s[0]] + s[1..] == s;
    }
  }

  /** Decoding the encoding of one byte followed by anything. */
  lemma DecodeEncodeByte(b: byte, rest: Bytes, mode: Mode)
    ensures Decode(EncodeByte(b, mode) + rest, mode) ==
            match Decode(rest, mode)
            case Some(r) => Some([b] + r)
            case None => None
  {
    var e := EncodeByte(b, mode) + rest;
    if IsSafe(b, mode) {
      assert e[1..] == rest;
    } else if mode == Form && b == SPACE {
      assert e[1..] == rest;
    } else {
      Hex.DigitValueInvertsDigits(b as int / 16);
      Hex.DigitValueInvertsDigits(b as int % 16);
      assert e[3..] == rest;
    }
  }

  /** Decoding undoes encoding, in both modes. */
  lemma {:induction false} DecodeEncode(s: Bytes, mode: Mode)
    ensures Decode(Encode(s, mode), mode) == Some(s)
  {
    if |s| > 0 {
      DecodeEncode(s[1..], mode);
      DecodeEncodeByte(s[0], Encode(s[1..], mode), mode);
      assert [s[0]] + s[1..] == s;
    }
  }

  /** Different inputs have different encodings. */
  lemma EncodeInjective(a: Bytes, b: Bytes, mode: Mode)
    requires Encode(a, mode) == Encode(b, mode)
    ensures a == b
  {
    DecodeEncode(a, mode);
    DecodeEncode(b, mode);
  }

  /** `quote` keeps every "/" of the key literally and escapes newlines,
      ampersands, question marks and equals signs. */
  lemma QuoteKeepsSlashes(s: Bytes)
    ensures |Split(Quote(s), SLASH)| == |Split(s, SLASH)|
    ensures forall k | 0 <= k < |Split(s, SLASH)| :: Split(Quote(s), SLASH)[k] == Quote(Split(s, SLASH)[k])
    ensures NEWLINE !in Quote(s) && AMPERSAND !in Quote(s) && QUESTION !in Quote(s) && EQUALS !in Quote(s)
  {
    QuoteSplit(s);
    AlphabetExcludes(Quote(s), Path);
  }

  /** Quoting commutes with splitting on "/": encode each segment, then join. */
  lemma {:induction false} QuoteSplit(s: Bytes)
    ensures Split(Quote(s), SLASH) == seq(|Split(s, SLASH)|, k requires 0 <= k < |Split(s, SLASH)| => Quote(Split(s, SLASH)[k]))
  {
    var parts := Split(s, SLASH);
    var qparts := seq(|parts|, k requires 0 <= k < |parts| => Quote(parts[k]));
    JoinSplit(s, SLASH);
    QuoteJoin(parts);
    forall k | 0 <= k < |qparts|
      ensures SLASH !in qparts[k]
    {
      QuoteFreeOfSlash(parts[k]);
    }
    SplitJoin(qparts, SLASH);
  }

  lemma {:induction false} QuoteFreeOfSlash(s: Bytes)
    requires SLASH !in s
    ensures SLASH !in Quote(s)
  {
    if |s| > 0 {
      QuoteFreeOfSlash(s[1..]);
      assert s[0] != SLASH;
      assert SLASH !in Escape(s[0]);
    }
  }

  lemma {:induction false} QuoteJoin(parts: seq<Bytes>)
    ensures Quote(Join(parts, SLASH)) == Join(seq(|parts|, k requires 0 <= k < |parts| => Quote(parts[k])), SLASH)
  {
    var qparts := seq(|parts|, k requires 0 <= k < |parts| => Quote(parts[k]));
    if |parts| > 1 {
      QuoteJoin(parts[1..]);
      assert qparts[1..] == seq(|parts[1..]|, k requires 0 <= k < |parts[1..]| => Quote(parts[1..][k]));
      EncodeAppend(parts[0] + [SLASH], Join(parts[1..], SLASH), Path);
      EncodeAppend(parts[0], [SLASH], Path);
      assert Encode([SLASH], Path) == [SLASH];
    }
  }

  /** No encoder writes a newline, "&", "?" or "="; `quote_plus` writes no
      "/" either. */
  lemma AlphabetExcludes(r: Bytes, mode: Mode)
    requires forall i | 0 <= i < |r| :: InAlphabet(r[i], mode)
    ensures NEWLINE !in r && AMPERSAND !in r && QUESTION !in r && EQUALS !in r
    ensures mode == Form ==> SLASH !in r
  {
  }

  /** `quote_plus(a + "/" + b)` writes the slash as "%2F" between the
      encodings of the two sides, and contains no literal "/". */
  lemma QuotePlusSlash(a: Bytes, b: Bytes)
    ensures QuotePlus(a + [SLASH] + b) == QuotePlus(a) + Str("%2F") + QuotePlus(b)
    ensures SLASH !in QuotePlus(a + [SLASH] + b)
  {
    EncodeAppend(a + [SLASH], b, Form);
    EncodeAppend(a, [SLASH], Form);
    EncodeSlash();
    AlphabetExcludes(QuotePlus(a + [SLASH] + b), Form);
  }

  lemma EncodeSlash()
    ensures Encode([SLASH], Form) == Str("%2F")
  {
    var e := Str("%2F");
    assert e[0] == PERCENT && e[1] == Hex.UpperDigit(2) && e[2] == Hex.UpperDigit(15);
    assert Encode([SLASH], Form) == Escape(SLASH) + Encode([], Form);
  }

  /** Every "%" an encoder writes starts a complete escape: two uppercase hex
      digits follow it, never a lowercase letter. */
  predicate WellEscaped(r: Bytes) {
    forall i | 0 <= i < |r| && r[i] == PERCENT ::
      && i + 2 < |r|
      && Hex.IsUpperHexDigit(r[i + 1]) && Hex.IsUpperHexDigit(r[i + 2])
      && !IsLower(r[i + 1]) && !IsLower(r[i + 2])
  }

  lemma WellEscapedAppend(a: Bytes, b: Bytes)
    requires WellEscaped(a) && WellEscaped(b)
    ensures WellEscaped(a + b)
  {
    forall i | 0 <= i < |a + b| && (a + b)[i] == PERCENT
      ensures && i + 2 < |a + b|
              && Hex.IsUpperHexDigit((a + b)[i + 1]) && Hex.IsUpperHexDigit((a + b)[i + 2])
              && !IsLower((a + b)[i + 1]) && !IsLower((a + b)[i + 2])
    {
      if i < |a| {
        assert a[i] == PERCENT;
      } else {
        assert b[i - |a|] == PERCENT;
      }
    }
  }

  /** Escapes are written with uppercase hex digits, in both modes. */
  lemma {:induction false} EscapesAreUppercase(s: Bytes, mode: Mode)
    ensures WellEscaped(Encode(s, mode))
  {
    if |s| > 0 {
      var e := EncodeByte(s[0], mode);
      EscapesAreUppercase(s[1..], mode);
      if !IsSafe(s[0], mode) && !(mode == Form && s[0] == SPACE) {
        var hi := Hex.UpperDigit(s[0] as int / 16);
        var lo := Hex.UpperDigit(s[0] as int % 16);
        Hex.DigitValueInvertsDigits(s[0] as int / 16);
        Hex.DigitValueInvertsDigits(s[0] as int % 16);
        assert e == [PERCENT, hi, lo];
        assert hi != PERCENT && lo != PERCENT;
      }
      assert WellEscaped(e);
      WellEscapedAppend(e, Encode(s[1..], mode));
    }
  }

  /** `quote_plus` writes a space as "+". */
  lemma QuotePlusSpace(a: Bytes, b: Bytes)
    ensures QuotePlus(a + [SPACE] + b) == QuotePlus(a) + [PLUS] + QuotePlus(b)
  {
    EncodeAppend(a + [SPACE], b, Form);
    EncodeAppend(a, [SPACE], Form);
    EncodeSpace();
  }

  /** `quote` writes a space as "%20". */
  lemma QuoteSpace(a: Bytes, b: Bytes)
    ensures Quote(a + [SPACE] + b) == Quote(a) + Str("%20") + Quote(b)
  {
    EncodeAppend(a + [SPACE], b, Path);
    EncodeAppend(a, [SPACE], Path);
    EncodeSpace();
  }

  lemma EncodeSpace()
    ensures Encode([SPACE], Form) == [PLUS]
    ensures Encode([SPACE], Path) == Str("%20")
  {
    assert Encode([SPACE], Form) == [PLUS] + Encode([], Form);
    var e := Str("%20");
    assert e[0] == PERCENT && e[1] == Hex.UpperDigit(2) && e[2] == Hex.UpperDigit(0);
    assert Encode([SPACE], Path) == Escape(SPACE) + Encode([], Path);
  }

  /** A leading "/" survives `quote`, so a path that starts with "/" decodes
      back to "/" and the key. */
  lemma QuoteSlashPrefix(s: Bytes)
    ensures [SLASH] + Quote(s) == Quote([SLASH] + s)
    ensures Decode([SLASH] + Quote(s), Path) == Some([SLASH] + s)
  {
    EncodeAppend([SLASH], s, Path);
    assert Encode([SLASH], Path) == [SLASH] + Encode([], Path);
  }
}

=== FILE: Signer.dfy ===
/** The signer: its identity, the presigning pipeline and the two public
    entry points (`get_signed_url`, `generate_signed_put_url`).

    The clock read of the source is the `now` parameter: one instant, taken
    once per call and threaded through every stage.
 */
module Signer {
  import opened Text
  import opened PercentEncoding
  import opened Timestamp
  import opened Canonical
  import Crypto
  import Hex

  const DEFAULT_EXPIRY: int := 9000
  const GET: Bytes := Str("GET")
  const PUT: Bytes := Str("PUT")
  const HTTPS: Bytes := Str("https://")

  /** The signer's identity; the service is always "s3". */
  datatype Signer = Signer(region: Bytes, accessKey: Bytes, secretKey: Bytes)

  /** Construction: the region is lowered once, the keys are kept as given. */
  function NewSigner(region: Bytes, accessKey: Bytes, secretKey: Bytes): (s: Signer)
    ensures s.accessKey == accessKey && s.secretKey == secretKey
    ensures HasNoUpper(s.region) && EqualIgnoringCase(s.region, region)
  {
    ToLowerFolds(region);
    Signer(ToLower(region), accessKey, secretKey)
  }

  /** Every intermediate value of one presigning call, ending in the URL. */
  datatype Presigned = Presigned(
    host: Bytes,
    canonicalUri: Bytes,
    amzDate: Bytes,
    dateStamp: Bytes,
    scope: Bytes,
    credential: Bytes,
    query: Bytes,
    canonicalRequest: Bytes,
    stringToSign: Bytes,
    signingKey: Crypto.Digest,
    signature: Bytes,
    url: Bytes)

  /** The signature parameter, appended after signing. */
  function SignatureParam(signature: Bytes): Bytes {
    Param(SIGNATURE_NAME, signature)
  }

  /** The presigning pipeline for any method token and any expiry. */
  function Presign(p: Crypto.Primitives, s: Signer, bucket: Bytes, objectKey: Bytes,
                   verb: Bytes, expiry: int, now: Instant): (r: Presigned)
    requires Valid(now)
    ensures bucket < r.host && EndpointRegion(r.host, bucket) == Some(s.region)
    ensures r.host == bucket + GLOBAL_SUFFIX <==> s.region == GLOBAL_REGION
    ensures [SLASH] <= r.canonicalUri && Decode(r.canonicalUri, Path) == Some([SLASH] + objectKey)
    ensures ParseAmzDate(r.amzDate) == Some(now) && r.dateStamp <= r.amzDate
    ensures r.dateStamp == DateStamp(now)
    ensures r.credential == QuotePlus(s.accessKey + [SLASH] + r.scope) && SLASH !in r.credential
    ensures Decode(r.credential, Form) == Some(s.accessKey + [SLASH] + r.scope)
    ensures r.signature == Crypto.HexDigest(p.hmacSha256(r.signingKey, r.stringToSign))
    ensures Hex.Decode(r.signature) == Some(p.hmacSha256(r.signingKey, r.stringToSign))
    ensures r.scope == CredentialScope(r.dateStamp, s.region)
    ensures r.query == CanonicalQuery(r.credential, r.amzDate, expiry)
    ensures r.canonicalRequest == CanonicalRequest(verb, r.canonicalUri, r.query, r.host)
    ensures r.stringToSign == StringToSign(r.amzDate, r.scope, p.sha256(r.canonicalRequest))
    ensures r.signingKey == Crypto.SigningKey(p, s.secretKey, r.dateStamp, s.region, SERVICE)
    ensures r.url == (HTTPS + r.host + r.canonicalUri) + [QUESTION]
                     + (r.query + [AMPERSAND] + SignatureParam(r.signature))
  {
    var host := Host(bucket, s.region);
    var canonicalUri := [SLASH] + Quote(objectKey);
    var amzDate := AmzDate(now);
    var dateStamp := DateStamp(now);
    var scope := CredentialScope(dateStamp, s.region);
    var credential := CredentialValue(s.accessKey, scope);
    var query := CanonicalQuery(credential, amzDate, expiry);
    var canonicalRequest := CanonicalRequest(verb, canonicalUri, query, host);
    var stringToSign := StringToSign(amzDate, scope, p.sha256(canonicalRequest));
    var signingKey := Crypto.SigningKey(p, s.secretKey, dateStamp, s.region, SERVICE);
    var signature := Crypto.HexDigest(p.hmacSha256(signingKey, stringToSign));
    var url := (HTTPS + host + canonicalUri) + [QUESTION] + (query + [AMPERSAND] + SignatureParam(signature));
    QuoteSlashPrefix(objectKey);
    ParseAmzDateInverts(now);
    Presigned(host, canonicalUri, amzDate, dateStamp, scope, credential, query,
              canonicalRequest, stringToSign, signingKey, signature, url)
  }

  /** `get_signed_url`: the URL of a presigning call whose canonical request
      has exactly "GET" as its method line, addressed to the bucket's host. */
  function GetSignedUrl(p: Crypto.Primitives, s: Signer, bucket: Bytes, objectKey: Bytes,
                        now: Instant, expiry: int := DEFAULT_EXPIRY): (r: Bytes)
    requires Valid(now)
    ensures var q := Presign(p, s, bucket, objectKey, GET, expiry, now);
            && r == q.url
            && |q.canonicalRequest| > |GET| && q.canonicalRequest[..|GET|] == GET
            && q.canonicalRequest[|GET|] == NEWLINE
    ensures HTTPS + Host(bucket, s.region) <= r
  {
    var q := Presign(p, s, bucket, objectKey, GET, expiry, now);
    MethodLine(GET, q.canonicalUri, q.query, q.host);
    UrlPrefix(q.host, q.canonicalUri, q.query + [AMPERSAND] + SignatureParam(q.signature));
    q.url
  }

  /** `generate_signed_put_url`: the URL of a presigning call whose canonical request
      has exactly "PUT" as its method line, addressed to the bucket's host. */
  function PutSignedUrl(p: Crypto.Primitives, s: Signer, bucket: Bytes, objectKey: Bytes,
                        now: Instant, expiry: int := DEFAULT_EXPIRY): (r: Bytes)
    requires Valid(now)
    ensures var q := Presign(p, s, bucket, objectKey, PUT, expiry, now);
            && r == q.url
            && |q.canonicalRequest| > |PUT| && q.canonicalRequest[..|PUT|] == PUT
            && q.canonicalRequest[|PUT|] == NEWLINE
    ensures HTTPS + Host(bucket, s.region) <= r
  {
    var q := Presign(p, s, bucket, objectKey, PUT, expiry, now);
    MethodLine(PUT, q.canonicalUri, q.query, q.host);
    UrlPrefix(q.host, q.canonicalUri, q.query + [AMPERSAND] + SignatureParam(q.signature));
    q.url
  }

  /** The URL begins with "https://" and the host. */
  lemma UrlPrefix(host: Bytes, canonicalUri: Bytes, signedQuery: Bytes)
    ensures HTTPS + host <= (HTTPS + host + canonicalUri) + [QUESTION] + signedQuery
  {
    assert (HTTPS + host + canonicalUri)[..|HTTPS + host|] == HTTPS + host;
  }

  // ---------------------------------------------------------------------
  // Properties of the pipeline
  // ---------------------------------------------------------------------

  /** A region given in any case resolves to the global endpoint exactly when
      it is "us-east-1" up to case; otherwise the host carries the lowered
      region as its own segment. */
  lemma GlobalEndpointIffUsEast1(bucket: Bytes, region: Bytes, accessKey: Bytes, secretKey: Bytes)
    ensures Host(bucket, NewSigner(region, accessKey, secretKey).region) == bucket + GLOBAL_SUFFIX
        <==> EqualIgnoringCase(region, GLOBAL_REGION)
    ensures !EqualIgnoringCase(region, GLOBAL_REGION) ==>
        Host(bucket, NewSigner(region, accessKey, secretKey).region)
          == bucket + REGIONAL_INFIX + ToLower(region) + REGIONAL_SUFFIX
  {
    var lowered := NewSigner(region, accessKey, secretKey).region;
    assert ToLower(GLOBAL_REGION) == GLOBAL_REGION;
    ToLowerSameIffEqualIgnoringCase(region, GLOBAL_REGION);
    if lowered != GLOBAL_REGION {
      assert |Host(bucket, lowered)| != |bucket + GLOBAL_SUFFIX|;
    }
  }

  /** The fields of a presigning call hold none of the structural separators
      the layouts below split on. */
  lemma FieldsFree(p: Crypto.Primitives, s: Signer, bucket: Bytes, objectKey: Bytes,
                   verb: Bytes, expiry: int, now: Instant, b: byte)
    requires Valid(now)
    requires b == NEWLINE || b == QUESTION || b == AMPERSAND
    ensures var r := Presign(p, s, bucket, objectKey, verb, expiry, now);
            b !in r.canonicalUri && b !in r.amzDate && b !in r.credential && b !in r.signature
  {
    var r := Presign(p, s, bucket, objectKey, verb, expiry, now);
    PiecesFree(objectKey, now, s.accessKey + [SLASH] + r.scope, p.hmacSha256(r.signingKey, r.stringToSign), b);
  }

  /** The pieces `Presign` builds its fields from hold no such separator. */
  lemma PiecesFree(objectKey: Bytes, now: Instant, credentialText: Bytes, mac: Crypto.Digest, b: byte)
    requires Valid(now)
    requires b == NEWLINE || b == QUESTION || b == AMPERSAND
    ensures b !in [SLASH] + Quote(objectKey) && b !in AmzDate(now)
    ensures b !in QuotePlus(credentialText) && b !in Crypto.HexDigest(mac)
  {
    AmzDateAlphabet(now);
    var h := Crypto.HexDigest(mac);
    assert b !in h by {
      assert forall i | 0 <= i < |h| :: Hex.IsLowerHexDigit(h[i]);
    }
  }

  /** Split on newlines, the canonical request is exactly its seven lines:
      the method, "/" + the quoted key, the query string without the
      signature, "host:" + host, an empty line, "host", "UNSIGNED-PAYLOAD". */
  lemma CanonicalRequestLayout(p: Crypto.Primitives, s: Signer, bucket: Bytes, objectKey: Bytes,
                               verb: Bytes, expiry: int, now: Instant)
    requires Valid(now)
    requires NEWLINE !in verb && NEWLINE !in bucket && NEWLINE !in s.region
    ensures var r := Presign(p, s, bucket, objectKey, verb, expiry, now);
            Split(r.canonicalRequest, NEWLINE)
              == [verb, [SLASH] + Quote(objectKey), r.query, HOST_HEADER_PREFIX + r.host, [], SIGNED_HEADERS, UNSIGNED_PAYLOAD]
    ensures var r := Presign(p, s, bucket, objectKey, verb, expiry, now);
            Split(r.query, AMPERSAND) == QueryParams(r.credential, r.amzDate, expiry)
  {
    var r := Presign(p, s, bucket, objectKey, verb, expiry, now);
    FieldsFree(p, s, bucket, objectKey, verb, expiry, now, NEWLINE);
    FieldsFree(p, s, bucket, objectKey, verb, expiry, now, AMPERSAND);
    QueryExcludes(r.credential, r.amzDate, expiry, NEWLINE);
    HostExcludes(bucket, s.region, NEWLINE);
    CanonicalRequestSplit(verb, r.canonicalUri, r.query, r.host);
    QuerySplit(r.credential, r.amzDate, expiry);
  }

  /** Split on newlines, the string to sign is the algorithm, the date, the
      scope and the hex SHA-256 of the canonical request. */
  lemma StringToSignLayout(p: Crypto.Primitives, s: Signer, bucket: Bytes, objectKey: Bytes,
                           verb: Bytes, expiry: int, now: Instant)
    requires Valid(now)
    requires NEWLINE !in s.region
    ensures var r := Presign(p, s, bucket, objectKey, verb, expiry, now);
            Split(r.stringToSign, NEWLINE)
              == [ALGORITHM, r.amzDate, r.scope, Crypto.HexDigest(p.sha256(r.canonicalRequest))]
  {
    var r := Presign(p, s, bucket, objectKey, verb, expiry, now);
    FieldsFree(p, s, bucket, objectKey, verb, expiry, now, NEWLINE);
    LiteralsExclude(NEWLINE);
    assert NEWLINE !in r.dateStamp by {
      assert forall i | 0 <= i < |r.dateStamp| :: IsDigit(r.dateStamp[i]);
    }
    assert NEWLINE !in r.scope;
    StringToSignSplit(r.amzDate, r.scope, p.sha256(r.canonicalRequest));
  }

  /** The signing key is the HMAC chain from "AWS4" + secret over exactly the
      "/"-separated components of the credential scope, which are the date
      stamp, the region, "s3" and "aws4_request". */
  lemma KeyMatchesScope(p: Crypto.Primitives, s: Signer, bucket: Bytes, objectKey: Bytes,
                        verb: Bytes, expiry: int, now: Instant)
    requires Valid(now)
    requires SLASH !in s.region
    ensures var r := Presign(p, s, bucket, objectKey, verb, expiry, now);
            Split(r.scope, SLASH) == [DateStamp(now), s.region, SERVICE, Crypto.TERMINATOR]
    ensures var r := Presign(p, s, bucket, objectKey, verb, expiry, now);
            r.signingKey == Crypto.Chain(p, Crypto.KEY_PREFIX + s.secretKey, Split(r.scope, SLASH))
  {
    var r := Presign(p, s, bucket, objectKey, verb, expiry, now);
    assert SLASH !in r.dateStamp by {
      assert forall i | 0 <= i < |r.dateStamp| :: IsDigit(r.dateStamp[i]);
    }
    ScopeSplit(r.dateStamp, s.region);
    KeyFollowsScope(p, s.secretKey, r.dateStamp, s.region);
  }

  /** The URL is "https://" + host + "/" + quoted key, then "?", then the
      signed query string. */
  lemma UrlLayout(p: Crypto.Primitives, s: Signer, bucket: Bytes, objectKey: Bytes,
                  verb: Bytes, expiry: int, now: Instant)
    requires Valid(now)
    requires QUESTION !in bucket && QUESTION !in s.region
    ensures var r := Presign(p, s, bucket, objectKey, verb, expiry, now);
            Split(r.url, QUESTION)
              == [HTTPS + r.host + ([SLASH] + Quote(objectKey)), r.query + [AMPERSAND] + SignatureParam(r.signature)]
  {
    var r := Presign(p, s, bucket, objectKey, verb, expiry, now);
    FieldsFree(p, s, bucket, objectKey, verb, expiry, now, QUESTION);
    UrlSidesFree(bucket, s.region, objectKey, r.credential, r.amzDate, expiry, r.signature);
    SplitPair(HTTPS + r.host + ([SLASH] + Quote(objectKey)), QUESTION,
              r.query + [AMPERSAND] + SignatureParam(r.signature));
  }

  /** Neither side of the URL's "?" holds a "?" of its own. */
  lemma UrlSidesFree(bucket: Bytes, region: Bytes, objectKey: Bytes,
                     credential: Bytes, amzDate: Bytes, expiry: int, signature: Bytes)
    requires QUESTION !in bucket && QUESTION !in region
    requires QUESTION !in credential && QUESTION !in amzDate && QUESTION !in signature
    ensures QUESTION !in HTTPS + Host(bucket, region) + ([SLASH] + Quote(objectKey))
    ensures QUESTION !in CanonicalQuery(credential, amzDate, expiry) + [AMPERSAND] + SignatureParam(signature)
  {
    LiteralsExclude(QUESTION);
    assert QUESTION !in HTTPS;
    HostExcludes(bucket, region, QUESTION);
    ParamFree(SIGNATURE_NAME, signature, QUESTION);
    QueryExcludes(credential, amzDate, expiry, QUESTION);
  }

  /** The signed query string splits on "&" into the six parameters in their
      fixed order: algorithm, credential, date, expiry, signed headers, and
      the signature last. */
  lemma SignedQueryLayout(p: Crypto.Primitives, s: Signer, bucket: Bytes, objectKey: Bytes,
                          verb: Bytes, expiry: int, now: Instant)
    requires Valid(now)
    ensures var r := Presign(p, s, bucket, objectKey, verb, expiry, now);
            Split(r.query + [AMPERSAND] + SignatureParam(r.signature), AMPERSAND)
              == QueryParams(r.credential, r.amzDate, expiry) + [SignatureParam(r.signature)]
  {
    var r := Presign(p, s, bucket, objectKey, verb, expiry, now);
    FieldsFree(p, s, bucket, objectKey, verb, expiry, now, AMPERSAND);
    SignedQuerySplit(r.credential, r.amzDate, expiry, r.signature);
  }

  /** Appending the signature parameter adds one last piece to the split. */
  lemma SignedQuerySplit(credential: Bytes, amzDate: Bytes, expiry: int, signature: Bytes)
    requires AMPERSAND !in credential && AMPERSAND !in amzDate && AMPERSAND !in signature
    ensures Split(CanonicalQuery(credential, amzDate, expiry) + [AMPERSAND] + SignatureParam(signature), AMPERSAND)
         == QueryParams(credential, amzDate, expiry) + [SignatureParam(signature)]
  {
    LiteralsExclude(AMPERSAND);
    var sigParam := SignatureParam(signature);
    ParamFree(SIGNATURE_NAME, signature, AMPERSAND);
    var ps := QueryParams(credential, amzDate, expiry);
    JoinAppend(ps, sigParam, AMPERSAND);
    QuerySplit(credential, amzDate, expiry);
    assert AllFree(ps + [sigParam], AMPERSAND);
    SplitJoin(ps + [sigParam], AMPERSAND);
  }

  /** The two entry points run the same pipeline and differ only in the
      method token: every field before the canonical request agrees, and
      the two canonical requests differ only in their first line. */
  lemma GetPutDifferOnlyInMethod(p: Crypto.Primitives, s: Signer, bucket: Bytes, objectKey: Bytes,
                                 now: Instant, expiry: int)
    requires Valid(now)
    ensures var g := Presign(p, s, bucket, objectKey, GET, expiry, now);
            var u := Presign(p, s, bucket, objectKey, PUT, expiry, now);
            && GetSignedUrl(p, s, bucket, objectKey, now, expiry) == g.url
            && PutSignedUrl(p, s, bucket, objectKey, now, expiry) == u.url
            && g.host == u.host && g.canonicalUri == u.canonicalUri && g.query == u.query
            && g.scope == u.scope && g.signingKey == u.signingKey
            && g.canonicalRequest[3..] == u.canonicalRequest[3..]
            && g.canonicalRequest[..3] == GET && u.canonicalRequest[..3] == PUT
  {
    var g := Presign(p, s, bucket, objectKey, GET, expiry, now);
    var u := Presign(p, s, bucket, objectKey, PUT, expiry, now);
    var rest := CanonicalRequest([], g.canonicalUri, g.query, g.host);
    CanonicalRequestVerbPrefix(GET, g.canonicalUri, g.query, g.host);
    CanonicalRequestVerbPrefix(PUT, u.canonicalUri, u.query, u.host);
    assert g.canonicalRequest == GET + rest;
    assert u.canonicalRequest == PUT + rest;
    assert |GET| == 3 && |PUT| == 3;
    assert (GET + rest)[3..] == rest && (PUT + rest)[3..] == rest;
  }

  /** The canonical request pins the method, the object key and the bucket:
      two calls by one signer at one instant that sign the same canonical
      request were asked for the same thing. */
  lemma CanonicalRequestDeterminesTarget(p: Crypto.Primitives, s: Signer, now: Instant, expiry: int,
                                         b1: Bytes, k1: Bytes, v1: Bytes,
                                         b2: Bytes, k2: Bytes, v2: Bytes)
    requires Valid(now)
    requires NEWLINE !in v1 && NEWLINE !in v2 && NEWLINE !in b1 && NEWLINE !in b2 && NEWLINE !in s.region
    requires Presign(p, s, b1, k1, v1, expiry, now).canonicalRequest
          == Presign(p, s, b2, k2, v2, expiry, now).canonicalRequest
    ensures v1 == v2 && k1 == k2 && b1 == b2
  {
    var r1 := Presign(p, s, b1, k1, v1, expiry, now);
    var r2 := Presign(p, s, b2, k2, v2, expiry, now);
    FieldsFree(p, s, b1, k1, v1, expiry, now, NEWLINE);
    FieldsFree(p, s, b2, k2, v2, expiry, now, NEWLINE);
    QueryExcludes(r1.credential, r1.amzDate, expiry, NEWLINE);
    QueryExcludes(r2.credential, r2.amzDate, expiry, NEWLINE);
    HostExcludes(b1, s.region, NEWLINE);
    HostExcludes(b2, s.region, NEWLINE);
    CanonicalRequestInjective(v1, r1.canonicalUri, r1.query, r1.host, v2, r2.canonicalUri, r2.query, r2.host);
    assert [SLASH] + k1 == [SLASH] + k2;
    assert k1 == ([SLASH] + k1)[1..];
    assert k2 == ([SLASH] + k2)[1..];
    HostInjectiveInBucket(b1, b2, s.region);
  }
}

=== FILE: Text.dfy ===
/** Text as the signer handles it.

    Every string the signer builds is eventually UTF-8 encoded, either to be
    hashed or to travel in the URL. The model therefore writes every string as
    the sequence of its UTF-8 bytes. Concatenating Python strings is then
    concatenating byte sequences, and splitting on an ASCII separator is
    splitting on that byte, because UTF-8 never uses an ASCII byte inside the
    encoding of another character.
 */
module Text {

  newtype byte = x: int | 0 <= x < 256

  type Bytes = seq<byte>

  datatype Option<+T> = None | Some(value: T)

  const NEWLINE: byte := '\n' as byte
  const SLASH: byte := '/' as byte
  const AMPERSAND: byte := '&' as byte
  const EQUALS: byte := '=' as byte
  const QUESTION: byte := '?' as byte
  const PERCENT: byte := '%' as byte
  const PLUS: byte := '+' as byte
  const SPACE: byte := ' ' as byte

  predicate IsAscii(s: string) {
    forall i | 0 <= i < |s| :: s[i] as int < 128
  }

  /** The bytes of an ASCII literal. */
  function Str(s: string): (r: Bytes)
    requires IsAscii(s)
    ensures |r| == |s|
    ensures forall i | 0 <= i < |s| :: r[i] as int == s[i] as int
  {
    seq(|s|, i requires 0 <= i < |s| => s[i] as int as byte)
  }

  predicate IsDigit(b: byte) {
    '0' as byte <= b <= '9' as byte
  }

  predicate IsUpper(b: byte) {
    'A' as byte <= b <= 'Z' as byte
  }

  predicate IsLower(b: byte) {
    'a' as byte <= b <= 'z' as byte
  }

  predicate IsAlpha(b: byte) {
    IsUpper(b) || IsLower(b)
  }

  predicate AllDigits(s: Bytes) {
    forall i | 0 <= i < |s| :: IsDigit(s[i])
  }

  // ---------------------------------------------------------------------
  // Case folding (ASCII `str.lower`)
  // ---------------------------------------------------------------------

  function LowerByte(b: byte): byte {
    if IsUpper(b) then b + 32 else b
  }

  function ToLower(s: Bytes): (r: Bytes)
    ensures |r| == |s|
    ensures forall i | 0 <= i < |s| :: r[i] == LowerByte(s[i])
  {
    seq(|s|, i requires 0 <= i < |s| => LowerByte(s[i]))
  }

  predicate HasNoUpper(s: Bytes) {
    forall i | 0 <= i < |s| :: !IsUpper(s[i])
  }

  /** Two bytes name the same character up to ASCII case. */
  predicate SameLetterIgnoringCase(a: byte, b: byte) {
    a == b || (IsUpper(a) && b == LowerByte(a)) || (IsUpper(b) && a == LowerByte(b))
  }

  predicate EqualIgnoringCase(s: Bytes, t: Bytes) {
    |s| == |t| && forall i | 0 <= i < |s| :: SameLetterIgnoringCase(s[i], t[i])
  }

  /** Lowering yields a string without capitals that matches the input up to
      case, and lowering it again changes nothing. */
  lemma ToLowerFolds(s: Bytes)
    ensures HasNoUpper(ToLower(s))
    ensures EqualIgnoringCase(ToLower(s), s)
    ensures ToLower(ToLower(s)) == ToLower(s)
  {
  }

  /** Two strings lower to the same string exactly when they agree up to
      ASCII case. */
  lemma ToLowerSameIffEqualIgnoringCase(s: Bytes, t: Bytes)
    ensures ToLower(s) == ToLower(t) <==> EqualIgnoringCase(s, t)
  {
    if ToLower(s) == ToLower(t) {
      forall i | 0 <= i < |s|
        ensures SameLetterIgnoringCase(s[i], t[i])
      {
        assert LowerByte(s[i]) == ToLower(s)[i] == ToLower(t)[i] == LowerByte(t[i]);
      }
    }
    if EqualIgnoringCase(s, t) {
      forall i | 0 <= i < |s|
        ensures ToLower(s)[i] == ToLower(t)[i]
      {
        assert SameLetterIgnoringCase(s[i], t[i]);
      }
    }
  }

  // ---------------------------------------------------------------------
  // Joining and splitting on a separator byte (`sep.join` / `str.split`)
  // ---------------------------------------------------------------------

  /** `sep.join(parts)`. */
  function Join(parts: seq<Bytes>, sep: byte): Bytes
  {
    if |parts| == 0 then []
    else if |parts| == 1 then parts[0]
    else parts[0] + [sep] + Join(parts[1..], sep)
  }

  /** Joining one more piece appends a separator and the piece. */
  lemma {:induction false} JoinAppend(parts: seq<Bytes>, last: Bytes, sep: byte)
    requires |parts| >= 1
    ensures Join(parts + [last], sep) == Join(parts, sep) + [sep] + last
  {
    if |parts| > 1 {
      assert (parts + [last])[1..] == parts[1..] + [last];
      JoinAppend(parts[1..], last, sep);
    } else {
      assert (parts + [last])[1..] == [last];
    }
  }

  /** A byte other than the separator occurs in a join only if it occurs in
      a piece. */
  lemma {:induction false} JoinFree(parts: seq<Bytes>, sep: byte, b: byte)
    requires b != sep && AllFree(parts, b)
    ensures b !in Join(parts, sep)
  {
    if |parts| > 1 {
      JoinFree(parts[1..], sep, b);
    }
  }

  /** `s.split(sep)`: the maximal separator-free pieces, in order. Like
      Python's, the result is never empty; the empty string splits into one
      empty piece. */
  function Split(s: Bytes, sep: byte): (parts: seq<Bytes>)
    ensures |parts| >= 1
    ensures forall k | 0 <= k < |parts| :: sep !in parts[k]
  {
    if |s| == 0 then [[]]
    else
      var rest := Split(s[1..], sep);
      if s[0] == sep then [[]] + rest
      else [[s[0]] + rest[0]] + rest[1..]
  }

  predicate AllFree(parts: seq<Bytes>, sep: byte) {
    forall k | 0 <= k < |parts| :: sep !in parts[k]
  }

  /** A string without the separator is one piece. */
  lemma {:induction false} SplitFree(s: Bytes, sep: byte)
    requires sep !in s
    ensures Split(s, sep) == [s]
  {
    if |s| > 0 {
      SplitFree(s[1..], sep);
      assert [s[0]] + s[1..] == s;
    }
  }

  /** Splitting `p + sep + rest` peels off `p` when `p` has no separator. */
  lemma {:induction false} SplitPeel(p: Bytes, sep: byte, rest: Bytes)
    requires sep !in p
    ensures Split(p + [sep] + rest, sep) == [p] + Split(rest, sep)
  {
    if |p| == 0 {
      assert p + [sep] + rest == [sep] + rest;
      assert ([sep] + rest)[1..] == rest;
    } else {
      var s := p + [sep] + rest;
      assert s[0] == p[0];
      assert s[1..] == p[1..] + [sep] + rest;
      SplitPeel(p[1..], sep, rest);
      assert [p[0]] + p[1..] == p;
    }
  }

  /** Splitting `a + sep + b` gives the two sides when neither holds the
      separator. */
  lemma SplitPair(a: Bytes, sep: byte, b: Bytes)
    requires sep !in a && sep !in b
    ensures Split(a + [sep] + b, sep) == [a, b]
  {
    SplitPeel(a, sep, b);
    SplitFree(b, sep);
  }

  /** Splitting undoes joining separator-free pieces. */
  lemma {:induction false} SplitJoin(parts: seq<Bytes>, sep: byte)
    requires |parts| >= 1
    requires AllFree(parts, sep)
    ensures Split(Join(parts, sep), sep) == parts
  {
    if |parts| == 1 {
      SplitFree(parts[0], sep);
    } else {
      SplitJoin(parts[1..], sep);
      SplitPeel(parts[0], sep, Join(parts[1..], sep));
      assert [parts[0]] + parts[1..] == parts;
    }
  }

  /** Joining undoes splitting. */
  lemma {:induction false} JoinSplit(s: Bytes, sep: byte)
    ensures Join(Split(s, sep), sep) == s
  {
    if |s| > 0 {
      JoinSplit(s[1..], sep);
      var rest := Split(s[1..], sep);
      assert [s[0]] + s[1..] == s;
      if s[0] == sep {
        assert ([[]] + rest)[1..] == rest;
      } else {
        var parts := [[s[0]] + rest[0]] + rest[1..];
        assert parts[1..] == rest[1..];
        if |rest| == 1 {
          assert Join(rest, sep) == rest[0];
        } else {
          assert Join(rest, sep) == rest[0] + [sep] + Join(rest[1..], sep);
        }
      }
    }
  }
}

=== FILE: Timestamp.dfy ===
/** The single instant a signing call captures, and its two renderings:
    `%Y%m%dT%H%M%SZ` (the `X-Amz-Date` value) and `%Y%m%d` (the date stamp of
    the credential scope).
 */
module Timestamp {
  import opened Text
  import opened Decimal

  /** A UTC calendar instant at one-second resolution (the fraction of a
      second is never rendered). */
  datatype Instant = Instant(year: int, month: int, day: int, hour: int, minute: int, second: int)

  /** Field ranges of a clock reading; four-digit years only (see README). */
  predicate Valid(t: Instant) {
    && 1000 <= t.year <= 9999
    && 1 <= t.month <= 12
    && 1 <= t.day <= 31
    && 0 <= t.hour <= 23
    && 0 <= t.minute <= 59
    && 0 <= t.second <= 59
  }

  const T_SEPARATOR: byte := 'T' as byte
  const Z_SUFFIX: byte := 'Z' as byte

  /** `t.strftime('%Y%m%d')`: eight digits. */
  function DateStamp(t: Instant): (r: Bytes)
    requires Valid(t)
    ensures |r| == 8 && AllDigits(r)
  {
    ZeroPad(t.year, 4) + ZeroPad(t.month, 2) + ZeroPad(t.day, 2)
  }

  /** `t.strftime('%Y%m%dT%H%M%SZ')`: sixteen bytes, "T" at index 8, "Z"
      last, and the date stamp of the same instant as its first eight. */
  function AmzDate(t: Instant): (r: Bytes)
    requires Valid(t)
    ensures |r| == 16
    ensures r[8] == T_SEPARATOR && r[15] == Z_SUFFIX
    ensures r[..8] == DateStamp(t)
    ensures AllDigits(r[..8]) && AllDigits(r[9..15])
  {
    var r := DateStamp(t) + [T_SEPARATOR] + ZeroPad(t.hour, 2) + ZeroPad(t.minute, 2) + ZeroPad(t.second, 2) + [Z_SUFFIX];
    assert r[..8] == DateStamp(t);
    assert r[9..15] == ZeroPad(t.hour, 2) + ZeroPad(t.minute, 2) + ZeroPad(t.second, 2);
    r
  }

  /** An `X-Amz-Date` value is made of digits, "T" and "Z" only. */
  lemma AmzDateAlphabet(t: Instant)
    requires Valid(t)
    ensures forall i | 0 <= i < |AmzDate(t)| :: IsDigit(AmzDate(t)[i]) || AmzDate(t)[i] in {T_SEPARATOR, Z_SUFFIX}
  {
    var r := AmzDate(t);
    forall i | 0 <= i < 16
      ensures IsDigit(r[i]) || r[i] in {T_SEPARATOR, Z_SUFFIX}
    {
      if i < 8 {
        assert r[i] == r[..8][i];
      } else if 8 < i < 15 {
        assert r[i] == r[9..15][i - 9];
      }
    }
  }

  /** Reads an `X-Amz-Date` value back into its fields. */
  function ParseAmzDate(s: Bytes): Option<Instant> {
    if |s| == 16 && s[8] == T_SEPARATOR && s[15] == Z_SUFFIX
       && forall i | 0 <= i < 15 && i != 8 :: IsDigit(s[i])
    then
      Some(Instant(ValueOf(s[0..4]), ValueOf(s[4..6]), ValueOf(s[6..8]),
                   ValueOf(s[9..11]), ValueOf(s[11..13]), ValueOf(s[13..15])))
    else None
  }

  /** Rendering and reading back recovers the captured instant, so the
      rendering loses nothing and two different instants render apart. */
  lemma ParseAmzDateInverts(t: Instant)
    requires Valid(t)
    ensures ParseAmzDate(AmzDate(t)) == Some(t)
  {
    var s := AmzDate(t);
    assert s[0..4] == ZeroPad(t.year, 4);
    assert s[4..6] == ZeroPad(t.month, 2);
    assert s[6..8] == ZeroPad(t.day, 2);
    assert s[9..11] == ZeroPad(t.hour, 2);
    assert s[11..13] == ZeroPad(t.minute, 2);
    assert s[13..15] == ZeroPad(t.second, 2);
    ValueOfZeroPad(t.year, 4);
    ValueOfZeroPad(t.month, 2);
    ValueOfZeroPad(t.day, 2);
    ValueOfZeroPad(t.hour, 2);
    ValueOfZeroPad(t.minute, 2);
    ValueOfZeroPad(t.second, 2);
  }
}
